=== FILE: README.md ===
# Demand-paging simulator: a verified model

This project models the demand-paging engine of a page-replacement simulator. Each
simulated process has a page table with one row per page. A row has the fields `present`,
`frame`, `loaded_at` and `last_accessed_at`. Each process also has a per-process quota of
frames (`max_frames`). The simulator keeps these:

- a logical clock;
- a global page-fault counter;
- a free-frame list, seeded with frames 0..511;
- the processes, by process id.

It replays a trace of virtual addresses `(process id, page, offset)`. For each entry it does
the following:

1. It counts the access.
2. It stops with a segmentation fault if the page is out of range.
3. On a hit, it refreshes `last_accessed_at`.
4. On a miss, it counts a fault and then does one of two things:
   - below quota, it loads the page into the front free frame;
   - at quota, it evicts the FIFO or LRU victim and hands that victim's frame to the
     faulting page.
5. It translates the address to `(frame, offset)` and advances the clock.

The project has four files:

- `page_table.dfy` (module `PageTable`) holds the rows and the three read-only scans of a
  page table.
  - The scans are the present count, the oldest page and the least recently used page.
  - Each is a loop method proved against a pure specification: `PresentCount` and
    `Scan`/`Victim`.
  - The victim is also characterised independently by `IsVictim`. It is a present row
    with minimal timestamp, the lowest index wins a tie, and the result is 0 when no
    present row is eligible.
- `paging.dfy` (module `Paging`) is the engine as a pure state machine.
  - `FaultIn`/`PageFault` model the fault handler and `MemoryAccess` models one trace
    entry.
  - `Replay`/`Run` model a whole trace.
  - The module also holds the invariants every step keeps:
    - RSS stays within quota;
    - faults never exceed accesses;
    - the free list is duplicate-free and within 0..511;
    - no resident frame is free;
    - no frame is resident twice;
    - free frames plus the total RSS equal 512.
  - It also holds the per-step and per-run properties.
- `process.dfy` (module `Proc`) holds the class `Process`: its pages, its page table and
  its counters. It also holds the byte-size accumulation of `read_from_input`, the page
  bounds check and the RSS query. `ProcState` is the value the engine sees of a process:
  its rows and counters.
- `simulation.dfy` (module `Sim`) holds the class `Simulation`. Its fields are updated in
  place by `HandlePageFault`, `PerformMemoryAccess` and `Run`.
  - `PerformMemoryAccess`, `Run`, `SeedFreeFrames` and `AdvanceClock` are proved to move
    the ghost `State()` exactly as `MemoryAccess`, `Run`, `Seeded` and `Tick` do.
  - `HandlePageFault` is proved against `FaultIn`. That proof covers only the faulting
    process's `View()`, the free list and the counters, because the method touches
    nothing else.
  - So every property proved about those functions holds of the class.

Nothing here reads files or prints. The page sizes of a process and the trace are inputs.
An out-of-range page ends `Run` with the outcome `SegfaultInvalidPage(i)`, where `i` is
the position of the offending entry. In the source this is where the program exits.

## Model

| member | source | states |
|---|---|---|
| PageTable.GetPresentPageCount | src/page_table/page_table.cpp:13-21 | returns exactly the number of present rows (the size of the set of present indices), hence at most the number of rows; the rows are a value, so they are unchanged |
| PageTable.PresentCountIsSize | src/page_table/page_table.cpp:13-21 | the running count equals the number of indices whose row is present and never exceeds the number of rows |
| PageTable.PresentCountUpdate | src/page_table/page_table.cpp:13-21 | replacing one row changes the count by exactly the change in that row's `present` flag |
| PageTable.PresentCountBelowLength | src/page_table/page_table.cpp:13-21 | a table with an absent row counts fewer present rows than it has rows |
| PageTable.GetOldestPage | src/page_table/page_table.cpp:24-34 | returns the FIFO victim: a present row with the least `loadedAt`, strictly less than that of every present row before it (lowest index wins ties), and 0 when no present row has a timestamp below `INT_MAX` |
| PageTable.GetLeastRecentlyUsedPage | src/page_table/page_table.cpp:37-47 | the same characterisation with `lastAccessedAt`: the LRU victim |
| PageTable.ScanIsVictim | src/page_table/page_table.cpp:24-47 | the running-minimum scan (start at index 0 and `INT_MAX`, replace only on a strictly smaller timestamp of a present row) ends on a row meeting `IsVictim`, holding that row's timestamp, or `INT_MAX` when there is no candidate |
| PageTable.VictimUnique | src/page_table/page_table.cpp:24-47 | the victim condition (minimal, first among equals) determines a single index |
| PageTable.PoliciesDiffer | src/page_table/page_table.cpp:24-47 | on a table where page 0 was loaded first but used last, the FIFO scan picks page 0 and the LRU scan picks page 1 |
| Proc.AccumulatePages | src/process/process.cpp:12-24 | the read loop keeps every page size in read order and its byte count is the sum of the sizes |
| Proc.SumSizesAppend | src/process/process.cpp:18-21 | reading more pages adds their sizes to the byte count |
| Proc.SumSizesBound | src/process/process.cpp:18-21 | no single page is larger than the whole process |
| Proc.Process.constructor | src/process/process.cpp:23 | a new process has the given pages and size, one absent row per page and both counters at zero |
| Proc.Process.ReadFromInput | src/process/process.cpp:12-30 | builds a fresh process whose pages are the sizes read and whose `Size()` is their sum, with an all-absent page table and zeroed counters |
| Proc.Process.Size | src/process/process.cpp:27-30 | the size of a process built by `read_from_input` is the sum of its page sizes |
| Proc.Process.IsValidPage | src/process/process.cpp:33-39 | an index is valid exactly when it is below the number of pages |
| Proc.Process.GetRss | src/process/process.cpp:42-45 | the resident-set size is the present-row count of the page table, never above the number of rows, nor above the number of pages when the table has one row per page |
| Proc.Process.FaultPercent | src/process/process.cpp:48-54 | 0 before the first access; otherwise the percentage with `r * accesses == 100 * faults`, so it lies in 0..100 whenever faults do not exceed accesses |
| Paging.RemoveAll | src/simulation/simulation.cpp:84 | removal by value keeps exactly the elements different from the value and never lengthens the list |
| Paging.RemoveFront | src/simulation/simulation.cpp:83-84 | on a duplicate-free free list, removing the front frame by value just drops the front, and the rest stays duplicate-free |
| Paging.Iota | src/simulation/simulation.cpp:21-23 | the seeded frames are 0, 1, ..., n-1 in ascending order |
| Paging.FaultIn | src/simulation/simulation.cpp:74-125 | the fault handler on one process and the free list keeps one row per page (its effect is stated by FaultTakesFrontFrame and FaultEvictsVictim) |
| Paging.PageFault | src/simulation/simulation.cpp:74-125 | the fault handler leaves the clock, the set of processes and every page-table length unchanged |
| Paging.Tick | src/simulation/simulation.cpp:27 | the clock goes up by exactly one and nothing else changes |
| Paging.Seeded | src/simulation/simulation.cpp:21-23 | frames 0..511 go, in ascending order, to the back of the free list; the frames already there keep their places and nothing else changes |
| Paging.Replay | src/simulation/simulation.cpp:25-28 | a replay that stops names an entry of the replayed trace: its position lies between `from` and `from + |trace|`; the clock and the effects are stated by ReplayClock, ReplayPreservesInv and ReplayStopsAtFirstInvalidPage |
| Paging.Run | src/simulation/simulation.cpp:19-31 | a run that stops names an index of the trace |
| Paging.MemoryAccess | src/simulation/simulation.cpp:33-71 | one trace entry leaves the clock, the set of processes and every page-table length unchanged |
| Paging.InvalidPageOnlyCounts | src/simulation/simulation.cpp:37-44 | an out-of-range page yields `InvalidPage` and the only change is the process's access count going up by one (it is counted before validation) |
| Paging.HitTouchesOnlyLastAccess | src/simulation/simulation.cpp:47-53 | on a hit only the row's `lastAccessedAt` changes, to the clock (besides the access count); presence, frame, `loadedAt`, the free list and both fault counters are untouched, and the stamp never moves back |
| Paging.StepLeavesStampsBehind | src/simulation/simulation.cpp:25-28 | after an access and the tick that follows it, every resident row's last-access stamp is strictly below the clock |
| Paging.HitAdvancesStamp | src/simulation/simulation.cpp:47-53 | with resident stamps behind the clock, a hit moves the row's last-access stamp strictly forward and past that of every other resident row of the process, so the row is not the LRU victim while another row is resident |
| Paging.MissCountsOneFault | src/simulation/simulation.cpp:55-76 | a miss raises the global and the per-process fault counters by exactly one and the access count by one |
| Paging.FaultTakesFrontFrame | src/simulation/simulation.cpp:81-92 | a miss below quota gives the page the front free frame, which leaves the free list (the list shrinks by one), makes it present with both stamps at the clock, raises the RSS by one, changes no other process and translates to that frame |
| Paging.FaultEvictsVictim | src/simulation/simulation.cpp:96-123 | a miss at quota evicts the policy's victim (a present row other than the page, meeting `IsVictim`), keeps the victim's frame number in its row, loads the page into that frame with both stamps at the clock, leaves the free list, the RSS and the other processes unchanged, and translates to that frame |
| Paging.VictimIsResident | src/simulation/simulation.cpp:81-113 | at quota (with the stamps of resident rows at most the clock, a quota of at least one and the clock below `INT_MAX`) the policy's victim is a present row |
| Paging.AccessTranslates | src/simulation/simulation.cpp:40-60 | an access translates exactly when the page is in range, and then the page is present and the physical address is its frame with the offset unchanged |
| Paging.NoEvictionWithinQuota | src/simulation/simulation.cpp:81-92 | a process with no more pages than its quota never evicts: every miss takes the front free frame |
| Paging.SeededInv | src/simulation/simulation.cpp:21-23 | a fresh simulator with frames 0..511 seeded satisfies every invariant |
| Paging.CountAccessPreservesInv | src/simulation/simulation.cpp:38 | counting an access keeps the invariants |
| Paging.HitPreservesInv | src/simulation/simulation.cpp:52 | refreshing a resident row's last-access stamp keeps the invariants |
| Paging.FaultFromPoolPreservesInv | src/simulation/simulation.cpp:75-92 | a fault below quota keeps the invariants (RSS within quota, pool size plus total RSS is 512, frames exclusive and not free) |
| Paging.FaultByEvictionPreservesInv | src/simulation/simulation.cpp:74-125 | a fault at quota keeps the invariants |
| Paging.AccessPreservesInv | src/simulation/simulation.cpp:33-71 | every defined access keeps the invariants |
| Paging.TickPreservesInv | src/simulation/simulation.cpp:27 | advancing the clock keeps the invariants |
| Paging.ReplayPreservesInv | src/simulation/simulation.cpp:25-28 | replaying any trace from a state satisfying the invariants ends in a state satisfying them |
| Paging.RunPreservesInv | src/simulation/simulation.cpp:19-31 | a whole run from a fresh simulator ends with RSS within quota, faults not above accesses for every process, exclusive frames, no resident frame free, and free frames plus total RSS equal to 512 |
| Paging.ReadyWhenFramesSuffice | src/simulation/simulation.cpp:81-84 | when the quotas fit in 512 frames, a miss below quota always finds a free frame |
| Paging.ReplayableWhenFramesSuffice | src/simulation/simulation.cpp:25-28 | a state satisfying the invariants can replay the whole trace under four conditions: the quotas fit in 512 frames, the quota is at least one, every pid in the trace is known, and the clock plus the trace length stays within `INT_MAX` |
| Paging.RunReplayable | src/simulation/simulation.cpp:19-28 | a whole run can be replayed under four conditions: the simulator is fresh (nothing resident, empty free list, faults not above accesses), the quotas fit in 512 frames, the quota is at least one, and every pid in the trace is known with the clock plus the trace length within `INT_MAX` |
| Paging.ReplayClock | src/simulation/simulation.cpp:25-28 | a completed replay advances the clock by exactly the trace length; a stopped one stops at an entry of the trace and advances it by one per entry before it |
| Paging.ReplayCompletesOnValidPages | src/simulation/simulation.cpp:25-40 | a trace whose pages are all in range completes |
| Paging.ReplayStopsAtFirstInvalidPage | src/simulation/simulation.cpp:40-44 | a trace stops exactly at its first out-of-range page and reports that entry's position; no later entry has any effect, because the final state and outcome equal those of the trace cut just after that entry |
| Paging.InvalidPageStopsRun | src/simulation/simulation.cpp:25-44 | a worked trace: a miss takes frame 5 from [5, 6], the next entry is out of range and stops the run with that access counted, the clock not advanced and the third entry never replayed |
| Sim.Simulation.constructor | src/simulation/simulation.cpp:12-17 | a new simulator has the given configuration, processes and trace, the clock and fault counter at zero and an empty free list |
| Sim.Simulation.HandlePageFault | src/simulation/simulation.cpp:74-125 | updates the global fault counter, the free list and the process's rows and counters in place exactly as `FaultIn` does, leaving the clock alone |
| Sim.Simulation.PerformMemoryAccess | src/simulation/simulation.cpp:33-71 | updates the simulator and the addressed process in place exactly as `MemoryAccess` does and returns its outcome; the other processes are untouched |
| Sim.Simulation.SeedFreeFrames | src/simulation/simulation.cpp:20-23 | appends frames 0..511, in order, to the free list and changes nothing else |
| Sim.Simulation.AdvanceClock | src/simulation/simulation.cpp:27 | advances the clock by one and changes nothing else |
| Sim.Simulation.Run | src/simulation/simulation.cpp:19-31 | seeds the free list, performs every access in trace order with one clock tick after each, and stops at the first out-of-range page; the final state and outcome are exactly `Paging.Run` of the initial state |

## Left out

- `print_summary`, `read_processes`, `read_addresses`, `read_simulation_file` and the stream loop of `Process::read_from_input` are text and file I/O. The page sizes and the trace are inputs instead.
- Verbose tracing, and the offset check that runs only in verbose mode, are left out. `Page::is_valid_offset` is not part of this model.
- The `frames` vector and `Frame::set_page` are left out. The vector is only appended to and never read, so it has no effect on paging.
- `VirtualAddress::from_string`, `Page` and the flag parser are not part of this model. Their results appear as datatypes and constructor arguments.
- `exit(0)` on an invalid page is modelled as the outcome `SegfaultInvalidPage`, not as process termination.
- Proc.Process.FaultPercent: computed over the reals. Double rounding is not modelled.
- Sim.Simulation.Run: requires `Replayable` of the seeded state: `StepReady` must hold at every step the replay reaches.
  - `StepReady` means a known pid, `max_frames >= 1`, a clock below `INT_MAX`, and a free frame for a miss below quota.
  - In the source, `front()` on an empty list is undefined.
  - `Paging.RunReplayable` gives a sufficient condition:
    - the simulator is fresh;
    - the quotas fit in 512 frames;
    - `max_frames >= 1`;
    - every trace pid is known;
    - the clock plus the trace length stays within `INT_MAX`.
- Paging.StepReady: requires a known process id. `std::map::operator[]` would insert a null process, and the source then dereferences it.
- Paging.StepReady: requires `max_frames >= 1`. With a quota of 0, the first fault of a process goes to the eviction path, which evicts row 0 and loads the page into row 0's frame. Under the assumed all-absent initial rows that is frame 0, which is still in the free pool. That breaks the invariants that no resident frame is free, that no frame is resident twice, and that free frames plus the total RSS equal 512. In the source, row 0's frame may also be uninitialised, because the `PageTable` constructor is not part of this model.
- Paging.StepReady: requires the clock below `INT_MAX`. A stamp equal to `INT_MAX` could never be chosen as a victim.
- Integer widths are not modelled. Counters, the clock and `size_t` sums are unbounded, so there is no wrap-around.
- Proc.Process.constructor: the `Process` constructor and the `PageTable` constructor are not part of this model. A new page table is assumed to have one absent row `(false, 0, 0, 0)` per page.
- Sim.Simulation.constructor: simulation.cpp:12-17 sets only the flags and reserves `frames`. The zero clock, the zero fault counter and the empty free list come from header initialisers, which are not part of this model, so they are assumed.
- Proc.Process.Size: requires `Sized()`, meaning the byte count is the sum of the page sizes. `read_from_input` builds every process this way. In the source it is the only caller of the `Process` constructor (process.cpp:23); the model's constructor does not require it.
- Sim.Simulation.PerformMemoryAccess: assumes distinct process ids name distinct process objects. With aliasing, one object would stand for two processes.
- The FIFO and LRU branches of `handle_page_fault` are two branches in `HandlePageFault`. In the pure model they are one definition, keyed by the timestamp the policy minimises.
- The page-table queries take the rows as a value. That is how their `const` qualifier is modelled: the rows cannot change.

=== FILE: page_table.dfy ===
/** The per-process page table: one row per page, and the three read-only scans the
    simulator runs over the rows (resident count, FIFO victim, LRU victim). */
module PageTable {

  /** The sentinel the victim scans start their running minimum from. */
  const INT_MAX: int := 2147483647

  /** One page-table row. `frame` is meaningful only while `present` holds. */
  datatype Row = Row(present: bool, frame: nat, loadedAt: nat, lastAccessedAt: nat)

  /** A page table of `n` rows, all absent: the state a new process starts in. */
  function Blank(n: nat): seq<Row>
  {
    seq(n, _ => Row(false, 0, 0, 0))
  }

  /** Which timestamp a victim scan minimises: load time (FIFO) or last access (LRU). */
  datatype Stamp = LoadedAt | LastAccessedAt

  function Key(row: Row, stamp: Stamp): nat
  {
    match stamp
    case LoadedAt => row.loadedAt
    case LastAccessedAt => row.lastAccessedAt
  }

  /** Number of present rows, accumulated left to right. */
  function PresentCount(rows: seq<Row>): nat
  {
    if rows == [] then 0
    else PresentCount(rows[..|rows| - 1]) + (if rows[|rows| - 1].present then 1 else 0)
  }

  /** The indices of the present rows: an independent description of what is counted. */
  ghost function PresentIndices(rows: seq<Row>): set<nat>
  {
    set i: nat | i < |rows| && rows[i].present
  }

  lemma {:induction false} PresentCountIsSize(rows: seq<Row>)
    ensures PresentCount(rows) == |PresentIndices(rows)|
    ensures PresentCount(rows) <= |rows|
  {
    if rows != [] {
      var n := |rows| - 1;
      PresentCountIsSize(rows[..n]);
      if rows[n].present {
        assert PresentIndices(rows) == PresentIndices(rows[..n]) + {n};
      } else {
        assert PresentIndices(rows) == PresentIndices(rows[..n]);
      }
    }
  }

  /** Replacing one row changes the count by exactly the change in that row's `present`. */
  lemma {:induction false} PresentCountUpdate(rows: seq<Row>, i: nat, r: Row)
    requires i < |rows|
    ensures PresentCount(rows[i := r]) ==
            PresentCount(rows) - (if rows[i].present then 1 else 0) + (if r.present then 1 else 0)
  {
    var n := |rows| - 1;
    if i < n {
      PresentCountUpdate(rows[..n], i, r);
      assert rows[i := r][..n] == rows[..n][i := r];
    } else {
      assert rows[i := r][..n] == rows[..n];
    }
  }

  /** The count depends only on which rows are present. */
  lemma {:induction false} PresentCountSamePresence(a: seq<Row>, b: seq<Row>)
    requires |a| == |b|
    requires forall i :: 0 <= i < |a| ==> a[i].present == b[i].present
    ensures PresentCount(a) == PresentCount(b)
  {
    if a != [] {
      var n := |a| - 1;
      PresentCountSamePresence(a[..n], b[..n]);
    }
  }

  /** A row that is not present keeps the count strictly below the number of rows. */
  lemma PresentCountBelowLength(rows: seq<Row>, i: nat)
    requires i < |rows| && !rows[i].present
    ensures PresentCount(rows) < |rows|
  {
    PresentCountUpdate(rows, i, rows[i].(present := true));
    PresentCountIsSize(rows[i := rows[i].(present := true)]);
  }

  /** A positive count means some row is present. */
  lemma PresentCountWitness(rows: seq<Row>) returns (i: nat)
    requires PresentCount(rows) > 0
    ensures i < |rows| && rows[i].present
  {
    PresentCountIsSize(rows);
    var k :| k in PresentIndices(rows);
    i := k;
  }

  /** What a victim scan holds after visiting all of `rows`: the chosen index and the running
      minimum, starting from index 0 and `INT_MAX`, replaced only on a strictly smaller
      timestamp of a present row. */
  function Scan(rows: seq<Row>, stamp: Stamp): (r: (nat, int))
    ensures r.0 == 0 || r.0 < |rows|
  {
    if rows == [] then (0, INT_MAX)
    else
      var prev := Scan(rows[..|rows| - 1], stamp);
      var row := rows[|rows| - 1];
      if Key(row, stamp) < prev.1 && row.present then (|rows| - 1, Key(row, stamp)) else prev
  }

  /** The index a victim scan returns. */
  function Victim(rows: seq<Row>, stamp: Stamp): nat
  {
    Scan(rows, stamp).0
  }

  /** Some present row has a timestamp the scan can pick (below the sentinel). */
  predicate HasCandidate(rows: seq<Row>, stamp: Stamp)
  {
    exists i :: 0 <= i < |rows| && rows[i].present && Key(rows[i], stamp) < INT_MAX
  }

  /** `v` is the victim: a present row whose timestamp is minimal among the present rows, and
      strictly smaller than that of every present row before it (lowest index wins a tie);
      index 0 when no present row is eligible. */
  ghost predicate IsVictim(rows: seq<Row>, stamp: Stamp, v: nat)
  {
    if HasCandidate(rows, stamp) then
      && v < |rows| && rows[v].present && Key(rows[v], stamp) < INT_MAX
      && (forall j :: 0 <= j < |rows| && rows[j].present ==> Key(rows[v], stamp) <= Key(rows[j], stamp))
      && (forall j :: 0 <= j < v && rows[j].present ==> Key(rows[v], stamp) < Key(rows[j], stamp))
    else
      v == 0
  }

  lemma {:induction false} ScanIsVictim(rows: seq<Row>, stamp: Stamp)
    ensures IsVictim(rows, stamp, Victim(rows, stamp))
    ensures Scan(rows, stamp).1 ==
            if HasCandidate(rows, stamp) then Key(rows[Victim(rows, stamp)], stamp) else INT_MAX
  {
    if rows != [] {
      var n := |rows| - 1;
      var prefix := rows[..n];
      ScanIsVictim(prefix, stamp);
      var row := rows[n];
      var p := Victim(prefix, stamp);
      assert forall j :: 0 <= j < n ==> prefix[j] == rows[j];
      if HasCandidate(prefix, stamp) {
        assert HasCandidate(rows, stamp) by {
          var k :| 0 <= k < |prefix| && prefix[k].present && Key(prefix[k], stamp) < INT_MAX;
          assert rows[k] == prefix[k];
        }
      } else if row.present && Key(row, stamp) < INT_MAX {
        assert HasCandidate(rows, stamp);
      } else {
        forall k | 0 <= k < |rows| && rows[k].present
          ensures Key(rows[k], stamp) >= INT_MAX
        {
          if k < n {
            assert prefix[k] == rows[k];
          }
        }
      }
    }
  }

  /** The victim condition pins down a single index. */
  lemma VictimUnique(rows: seq<Row>, stamp: Stamp, a: nat, b: nat)
    requires IsVictim(rows, stamp, a) && IsVictim(rows, stamp, b)
    ensures a == b
  {
  }

  /** The two policies part ways once a page is re-accessed: page 0 was loaded first but
      used last, so FIFO picks it while LRU picks page 1. */
  lemma PoliciesDiffer(a: nat, b: nat)
    ensures
      var rows := [Row(true, a, 0, 2), Row(true, b, 1, 1), Row(false, 0, 0, 0)];
      Victim(rows, LoadedAt) == 0 && Victim(rows, LastAccessedAt) == 1
  {
    var rows := [Row(true, a, 0, 2), Row(true, b, 1, 1), Row(false, 0, 0, 0)];
    ScanIsVictim(rows, LoadedAt);
    VictimUnique(rows, LoadedAt, 0, Victim(rows, LoadedAt));
    ScanIsVictim(rows, LastAccessedAt);
    VictimUnique(rows, LastAccessedAt, 1, Victim(rows, LastAccessedAt));
  }

  /** `get_present_page_count`: count the present rows. */
  method GetPresentPageCount(rows: seq<Row>) returns (present: nat)
    ensures present == PresentCount(rows)
    ensures present == |PresentIndices(rows)| && present <= |rows|
  {
    present := 0;
    for i := 0 to |rows|
      invariant present == PresentCount(rows[..i])
    {
      assert rows[..i + 1][..i] == rows[..i];
      if rows[i].present {
        present := present + 1;
      }
    }
    assert rows[..|rows|] == rows;
    PresentCountIsSize(rows);
  }

  /** `get_oldest_page`: the FIFO victim, by `loadedAt`. */
  method GetOldestPage(rows: seq<Row>) returns (indexOfOldest: nat)
    ensures indexOfOldest == Victim(rows, LoadedAt)
    ensures IsVictim(rows, LoadedAt, indexOfOldest)
    ensures rows != [] ==> indexOfOldest < |rows|
  {
    indexOfOldest := 0;
    var time := INT_MAX;
    for i := 0 to |rows|
      invariant (indexOfOldest, time) == Scan(rows[..i], LoadedAt)
    {
      assert rows[..i + 1][..i] == rows[..i];
      if rows[i].loadedAt < time && rows[i].present {
        indexOfOldest := i;
        time := rows[i].loadedAt;
      }
    }
    assert rows[..|rows|] == rows;
    ScanIsVictim(rows, LoadedAt);
  }

  /** `get_least_recently_used_page`: the LRU victim, by `lastAccessedAt`. */
  method GetLeastRecentlyUsedPage(rows: seq<Row>) returns (indexOfLastUsed: nat)
    ensures indexOfLastUsed == Victim(rows, LastAccessedAt)
    ensures IsVictim(rows, LastAccessedAt, indexOfLastUsed)
    ensures rows != [] ==> indexOfLastUsed < |rows|
  {
    indexOfLastUsed := 0;
    var time := INT_MAX;
    for i := 0 to |rows|
      invariant (indexOfLastUsed, time) == Scan(rows[..i], LastAccessedAt)
    {
      assert rows[..i + 1][..i] == rows[..i];
      if rows[i].lastAccessedAt < time && rows[i].present {
        indexOfLastUsed := i;
        time := rows[i].lastAccessedAt;
      }
    }
    assert rows[..|rows|] == rows;
    ScanIsVictim(rows, LastAccessedAt);
  }
}

=== FILE: paging.dfy ===
/** The demand-paging engine as a pure state machine: one transition per trace entry, the
    page-fault handler with its two eviction policies, the replay of a whole trace, and the
    invariants every transition keeps. The `Simulation` class is proved against these
    functions. */
module Paging {
  import opened PageTable
  import opened Proc

  /** Number of physical frames seeded into the free list. */
  const NUM_FRAMES: nat := 512

  datatype Strategy = FIFO | LRU

  /** The run configuration the engine reads: the per-process frame quota and the policy. */
  datatype Config = Config(maxFrames: nat, strategy: Strategy)

  datatype VirtualAddress = VirtualAddress(processId: int, page: nat, offset: nat)

  datatype PhysicalAddress = PhysicalAddress(frame: nat, offset: nat)

  /** The simulator's state: logical clock, global fault count, free-frame list, processes. */
  datatype SimState = SimState(time: nat, pageFaults: nat, freeFrames: seq<nat>, procs: map<int, ProcState>)

  datatype AccessOutcome = Translated(address: PhysicalAddress) | InvalidPage

  datatype AccessResult = AccessResult(state: SimState, outcome: AccessOutcome)

  /** A run either replays the whole trace or stops at the entry whose page is out of range. */
  datatype RunOutcome = Completed | SegfaultInvalidPage(entry: nat)

  datatype RunResult = RunResult(state: SimState, outcome: RunOutcome)

  function StampOf(strategy: Strategy): Stamp
  {
    match strategy
    case FIFO => LoadedAt
    case LRU => LastAccessedAt
  }

  // ---------------------------------------------------------------------------------------
  // The free-frame list

  predicate Distinct(s: seq<nat>)
  {
    forall i, j :: 0 <= i < j < |s| ==> s[i] != s[j]
  }

  /** List removal by value: every element equal to `x` goes, the others keep their order. */
  function RemoveAll(s: seq<nat>, x: nat): (r: seq<nat>)
    ensures |r| <= |s|
    ensures forall y :: y in r <==> y in s && y != x
  {
    if s == [] then [] else (if s[0] == x then [] else [s[0]]) + RemoveAll(s[1..], x)
  }

  lemma {:induction false} RemoveAllAbsent(s: seq<nat>, x: nat)
    requires x !in s
    ensures RemoveAll(s, x) == s
  {
    if s != [] {
      RemoveAllAbsent(s[1..], x);
    }
  }

  /** On a duplicate-free list, removing the front value by value just drops the front. */
  lemma RemoveFront(s: seq<nat>)
    requires s != [] && Distinct(s)
    ensures RemoveAll(s, s[0]) == s[1..]
    ensures Distinct(s[1..])
  {
    forall k | 0 <= k < |s| - 1
      ensures s[1..][k] != s[0]
    {
      assert s[1..][k] == s[k + 1];
    }
    RemoveAllAbsent(s[1..], s[0]);
  }

  /** The frames 0, 1, ..., n - 1 in ascending order. */
  function Iota(n: nat): (r: seq<nat>)
    ensures |r| == n
    ensures forall i :: 0 <= i < n ==> r[i] == i
  {
    if n == 0 then [] else Iota(n - 1) + [n - 1]
  }

  // ---------------------------------------------------------------------------------------
  // One access

  /** What a single access needs in order to be defined: a known process, a quota of at least
      one frame, a clock below the scans' sentinel, and a free frame whenever the access
      misses below quota. */
  predicate StepReady(s: SimState, cfg: Config, va: VirtualAddress)
  {
    && va.processId in s.procs
    && cfg.maxFrames >= 1
    && s.time < INT_MAX
    && (var rows := s.procs[va.processId].rows;
        va.page < |rows| && !rows[va.page].present && PresentCount(rows) < cfg.maxFrames
        ==> s.freeFrames != [])
  }

  /** A process and the free list, as a page fault leaves them. */
  datatype Loaded = Loaded(proc: ProcState, freeFrames: seq<nat>)

  /** What the page-fault handler does to the faulting process and the free list: count the
      fault, then load the page into the front free frame while under quota, or else into
      the frame of the policy's victim. */
  function FaultIn(ps: ProcState, freeFrames: seq<nat>, time: nat, cfg: Config, page: nat): (r: Loaded)
    requires page < |ps.rows|
    requires PresentCount(ps.rows) < cfg.maxFrames ==> freeFrames != []
    ensures |r.proc.rows| == |ps.rows|
  {
    var counted := ps.(pageFaults := ps.pageFaults + 1);
    if PresentCount(ps.rows) < cfg.maxFrames then
      var frame := freeFrames[0];
      Loaded(counted.(rows := ps.rows[page := Row(true, frame, time, time)]), RemoveAll(freeFrames, frame))
    else
      var victim := Victim(ps.rows, StampOf(cfg.strategy));
      var evicted := ps.rows[victim := ps.rows[victim].(present := false)];
      var frame := evicted[victim].frame;
      Loaded(counted.(rows := evicted[page := Row(true, frame, time, time)]), freeFrames)
  }

  /** The page-fault handler on the whole state: the global fault counter, the free list and
      the faulting process change. */
  function PageFault(s: SimState, cfg: Config, pid: int, page: nat): (r: SimState)
    requires pid in s.procs && page < |s.procs[pid].rows|
    requires PresentCount(s.procs[pid].rows) < cfg.maxFrames ==> s.freeFrames != []
    ensures r.procs.Keys == s.procs.Keys && r.time == s.time
    ensures forall q :: q in s.procs ==> |r.procs[q].rows| == |s.procs[q].rows|
  {
    var l := FaultIn(s.procs[pid], s.freeFrames, s.time, cfg, page);
    s.(pageFaults := s.pageFaults + 1, freeFrames := l.freeFrames, procs := s.procs[pid := l.proc])
  }

  /** One trace entry: count the access, reject an out-of-range page, touch a resident page,
      fault in a missing one, and translate. The clock is not advanced here. */
  function MemoryAccess(s: SimState, cfg: Config, va: VirtualAddress): (r: AccessResult)
    requires StepReady(s, cfg, va)
    ensures r.state.procs.Keys == s.procs.Keys && r.state.time == s.time
    ensures forall q :: q in s.procs ==> |r.state.procs[q].rows| == |s.procs[q].rows|
  {
    var pid := va.processId;
    var ps := s.procs[pid].(memoryAccesses := s.procs[pid].memoryAccesses + 1);
    var s1 := s.(procs := s.procs[pid := ps]);
    if va.page >= |ps.rows| then
      AccessResult(s1, InvalidPage)
    else
      var s2 :=
        if ps.rows[va.page].present then
          s1.(procs := s1.procs[pid := ps.(rows := ps.rows[va.page := ps.rows[va.page].(lastAccessedAt := s.time)])])
        else
          PageFault(s1, cfg, pid, va.page);
      AccessResult(s2, Translated(PhysicalAddress(s2.procs[pid].rows[va.page].frame, va.offset)))
  }

  // ---------------------------------------------------------------------------------------
  // A whole run

  /** The clock step after each successful access. */
  function Tick(s: SimState): (r: SimState)
    ensures r.time == s.time + 1
    ensures r.pageFaults == s.pageFaults && r.freeFrames == s.freeFrames && r.procs == s.procs
  {
    s.(time := s.time + 1)
  }

  /** Every access the replay reaches is defined (it stops at the first invalid page). */
  predicate Replayable(s: SimState, cfg: Config, trace: seq<VirtualAddress>)
    decreases |trace|
  {
    trace == [] ||
    (StepReady(s, cfg, trace[0]) &&
     var r := MemoryAccess(s, cfg, trace[0]);
     (r.outcome.InvalidPage? || Replayable(Tick(r.state), cfg, trace[1..])))
  }

  /** Replay the trace entry by entry, one clock tick after each successful access; `from` is
      the position of `trace[0]` in the whole trace. */
  function Replay(s: SimState, cfg: Config, trace: seq<VirtualAddress>, from: nat): (r: RunResult)
    requires Replayable(s, cfg, trace)
    ensures r.outcome.SegfaultInvalidPage? ==> from <= r.outcome.entry < from + |trace|
    decreases |trace|
  {
    if trace == [] then
      RunResult(s, Completed)
    else
      var r := MemoryAccess(s, cfg, trace[0]);
      if r.outcome.InvalidPage? then RunResult(r.state, SegfaultInvalidPage(from))
      else Replay(Tick(r.state), cfg, trace[1..], from + 1)
  }

  /** The state `run` starts replaying from: frames 0..511 appended to the free list. */
  function Seeded(s: SimState): (r: SimState)
    ensures |r.freeFrames| == |s.freeFrames| + NUM_FRAMES
    ensures r.freeFrames[..|s.freeFrames|] == s.freeFrames
    ensures r.freeFrames[|s.freeFrames|..] == Iota(NUM_FRAMES)
    ensures r.time == s.time && r.pageFaults == s.pageFaults && r.procs == s.procs
  {
    s.(freeFrames := s.freeFrames + Iota(NUM_FRAMES))
  }

  function Run(s: SimState, cfg: Config, trace: seq<VirtualAddress>): (r: RunResult)
    requires Replayable(Seeded(s), cfg, trace)
    ensures r.outcome.SegfaultInvalidPage? ==> r.outcome.entry < |trace|
  {
    Replay(Seeded(s), cfg, trace, 0)
  }

  // ---------------------------------------------------------------------------------------
  // Sums over the process map

  lemma MapHasKey(m: map<int, ProcState>)
    requires |m| != 0
    ensures exists k :: k in m
  {
    if forall k :: k !in m {
      assert false;
    }
  }

  /** Some process id of a non-empty map: the one a sum visits first. */
  ghost function Pick(m: map<int, ProcState>): (k: int)
    requires |m| != 0
    ensures k in m
  {
    MapHasKey(m);
    var k :| k in m;
    k
  }

  /** The sum of `f` over the processes of `m`. */
  ghost function SumOver(m: map<int, ProcState>, f: ProcState -> nat): nat
    decreases |m|
  {
    if |m| == 0 then 0
    else
      var k := Pick(m);
      assert (m - {k}).Keys == m.Keys - {k};
      f(m[k]) + SumOver(m - {k}, f)
  }

  /** The sum does not depend on which process it visits first. */
  lemma {:induction false} SumOverRemove(m: map<int, ProcState>, f: ProcState -> nat, k: int)
    requires k in m
    ensures SumOver(m, f) == f(m[k]) + SumOver(m - {k}, f)
    decreases |m|
  {
    var j := Pick(m);
    if j != k {
      var mj, mk := m - {j}, m - {k};
      assert mj.Keys == m.Keys - {j};
      assert mk.Keys == m.Keys - {k};
      SumOverRemove(mj, f, k);
      SumOverRemove(mk, f, j);
      assert (mj - {k}).Keys == (mk - {j}).Keys;
      assert mj - {k} == mk - {j};
    }
  }

  lemma SumOverUpdate(m: map<int, ProcState>, f: ProcState -> nat, k: int, v: ProcState)
    requires k in m
    ensures SumOver(m[k := v], f) == SumOver(m, f) - f(m[k]) + f(v)
  {
    SumOverRemove(m, f, k);
    SumOverRemove(m[k := v], f, k);
    assert m[k := v] - {k} == m - {k};
  }

  lemma {:induction false} SumOverMono(m: map<int, ProcState>, f: ProcState -> nat, g: ProcState -> nat)
    requires forall k :: k in m ==> f(m[k]) <= g(m[k])
    ensures SumOver(m, f) <= SumOver(m, g)
    decreases |m|
  {
    if |m| != 0 {
      MapHasKey(m);
      var k :| k in m;
      SumOverRemove(m, f, k);
      SumOverRemove(m, g, k);
      assert (m - {k}).Keys == m.Keys - {k};
      SumOverMono(m - {k}, f, g);
    }
  }

  lemma {:induction false} SumOverSameKeys(m1: map<int, ProcState>, m2: map<int, ProcState>, f: ProcState -> nat)
    requires m1.Keys == m2.Keys
    requires forall k :: k in m1 ==> f(m1[k]) == f(m2[k])
    ensures SumOver(m1, f) == SumOver(m2, f)
    decreases |m1|
  {
    if |m1| != 0 {
      var k := Pick(m1);
      SumOverRemove(m1, f, k);
      SumOverRemove(m2, f, k);
      assert (m1 - {k}).Keys == m1.Keys - {k};
      SumOverSameKeys(m1 - {k}, m2 - {k}, f);
    }
  }

  lemma {:induction false} SumOverZero(m: map<int, ProcState>, f: ProcState -> nat)
    requires forall k :: k in m ==> f(m[k]) == 0
    ensures SumOver(m, f) == 0
    decreases |m|
  {
    if |m| != 0 {
      MapHasKey(m);
      var k :| k in m;
      SumOverRemove(m, f, k);
      assert (m - {k}).Keys == m.Keys - {k};
      SumOverZero(m - {k}, f);
    }
  }

  /** The frames a process can ever hold at once: its quota, or its page count if smaller. */
  function Demand(maxFrames: nat): ProcState -> nat
  {
    (ps: ProcState) => if |ps.rows| < maxFrames then |ps.rows| else maxFrames
  }

  /** The quotas of all processes fit in physical memory together. */
  ghost predicate FramesSuffice(s: SimState, cfg: Config)
  {
    SumOver(s.procs, Demand(cfg.maxFrames)) <= NUM_FRAMES
  }

  // ---------------------------------------------------------------------------------------
  // Invariants

  /** Row `i` of process `p` is resident. */
  ghost predicate Holds(s: SimState, p: int, i: int)
  {
    p in s.procs && 0 <= i < |s.procs[p].rows| && s.procs[p].rows[i].present
  }

  ghost predicate QuotaAndCounters(s: SimState, cfg: Config)
  {
    forall p :: p in s.procs ==>
      Rss(s.procs[p]) <= cfg.maxFrames && s.procs[p].pageFaults <= s.procs[p].memoryAccesses
  }

  ghost predicate ResidentRowsOk(s: SimState)
  {
    forall p, i :: Holds(s, p, i) ==>
      var row := s.procs[p].rows[i];
      row.frame < NUM_FRAMES && row.loadedAt <= row.lastAccessedAt <= s.time
  }

  ghost predicate PoolOk(s: SimState)
  {
    Distinct(s.freeFrames) && forall k :: 0 <= k < |s.freeFrames| ==> s.freeFrames[k] < NUM_FRAMES
  }

  ghost predicate FramesNotFree(s: SimState)
  {
    forall p, i :: Holds(s, p, i) ==> s.procs[p].rows[i].frame !in s.freeFrames
  }

  ghost predicate FramesExclusive(s: SimState)
  {
    forall p, i, q, j :: Holds(s, p, i) && Holds(s, q, j) && (p != q || i != j) ==>
      s.procs[p].rows[i].frame != s.procs[q].rows[j].frame
  }

  ghost function TotalRss(s: SimState): nat
  {
    SumOver(s.procs, Rss)
  }

  ghost predicate Inv(s: SimState, cfg: Config)
  {
    && QuotaAndCounters(s, cfg)
    && ResidentRowsOk(s)
    && PoolOk(s)
    && FramesNotFree(s)
    && FramesExclusive(s)
    && |s.freeFrames| + TotalRss(s) == NUM_FRAMES
  }

  /** The state before `run`: nothing resident, empty free list, counters consistent. */
  ghost predicate Fresh(s: SimState)
  {
    && s.freeFrames == []
    && (forall p, i :: p in s.procs && 0 <= i < |s.procs[p].rows| ==> !s.procs[p].rows[i].present)
    && (forall p :: p in s.procs ==> s.procs[p].pageFaults <= s.procs[p].memoryAccesses)
  }

  // ---------------------------------------------------------------------------------------
  // Preservation of the invariants

  /** Frames 0..n-1 form a valid pool. */
  lemma IotaPool(n: nat)
    requires n <= NUM_FRAMES
    ensures PoolOk(SimState(0, 0, Iota(n), map[]))
  {
  }

  /** Without resident rows, no process holds a frame. */
  lemma NothingResident(s: SimState)
    requires forall p, i :: p in s.procs && 0 <= i < |s.procs[p].rows| ==> !s.procs[p].rows[i].present
    ensures forall p :: p in s.procs ==> Rss(s.procs[p]) == 0
    ensures TotalRss(s) == 0
  {
    forall p | p in s.procs
      ensures Rss(s.procs[p]) == 0
    {
      PresentCountIsSize(s.procs[p].rows);
      assert PresentIndices(s.procs[p].rows) == {};
    }
    SumOverZero(s.procs, Rss);
  }

  lemma SeededInv(s: SimState, cfg: Config)
    requires Fresh(s)
    ensures Inv(Seeded(s), cfg)
  {
    var t := Seeded(s);
    assert t.freeFrames == Iota(NUM_FRAMES);
    IotaPool(NUM_FRAMES);
    NothingResident(t);
    assert forall p, i :: !Holds(t, p, i);
  }

  /** `t` differs from `s` at most in counters, the clock moving forward and timestamps of
      resident rows: the same rows are resident in the same frames, and the free list is
      the same. */
  ghost predicate SameResidency(s: SimState, t: SimState)
  {
    && t.procs.Keys == s.procs.Keys && t.freeFrames == s.freeFrames && s.time <= t.time
    && (forall p :: p in s.procs ==>
          && |t.procs[p].rows| == |s.procs[p].rows|
          && t.procs[p].pageFaults <= t.procs[p].memoryAccesses
          && forall i :: 0 <= i < |s.procs[p].rows| ==>
               && t.procs[p].rows[i].present == s.procs[p].rows[i].present
               && t.procs[p].rows[i].frame == s.procs[p].rows[i].frame)
    && (forall p, i :: Holds(t, p, i) ==>
          t.procs[p].rows[i].loadedAt <= t.procs[p].rows[i].lastAccessedAt <= t.time)
  }

  lemma SameResidencyRss(s: SimState, t: SimState)
    requires SameResidency(s, t)
    ensures forall p :: p in s.procs ==> Rss(t.procs[p]) == Rss(s.procs[p])
    ensures TotalRss(t) == TotalRss(s)
  {
    forall p | p in s.procs
      ensures Rss(t.procs[p]) == Rss(s.procs[p])
    {
      PresentCountSamePresence(s.procs[p].rows, t.procs[p].rows);
    }
    SumOverSameKeys(s.procs, t.procs, Rss);
  }

  lemma SameResidencyInv(s: SimState, t: SimState, cfg: Config)
    requires Inv(s, cfg) && SameResidency(s, t)
    ensures Inv(t, cfg)
  {
    SameResidencyRss(s, t);
    assert forall p, i :: Holds(t, p, i) <==> Holds(s, p, i);
  }

  /** Replacing one process by a value with the same residency keeps the invariants. */
  lemma SameResidencyAt(s: SimState, cfg: Config, pid: int, v: ProcState)
    requires Inv(s, cfg) && pid in s.procs
    requires |v.rows| == |s.procs[pid].rows| && v.pageFaults <= v.memoryAccesses
    requires forall i :: 0 <= i < |v.rows| ==>
      v.rows[i].present == s.procs[pid].rows[i].present && v.rows[i].frame == s.procs[pid].rows[i].frame
    requires forall i :: 0 <= i < |v.rows| && v.rows[i].present ==>
      v.rows[i].loadedAt <= v.rows[i].lastAccessedAt <= s.time
    ensures Inv(s.(procs := s.procs[pid := v]), cfg)
  {
    var t := s.(procs := s.procs[pid := v]);
    assert SameResidency(s, t);
    SameResidencyInv(s, t, cfg);
  }

  /** Counting an access at process `pid` keeps the invariants. */
  lemma CountAccessPreservesInv(s: SimState, cfg: Config, pid: int)
    requires Inv(s, cfg) && pid in s.procs
    ensures
      var ps := s.procs[pid];
      Inv(s.(procs := s.procs[pid := ps.(memoryAccesses := ps.memoryAccesses + 1)]), cfg)
  {
    var ps := s.procs[pid];
    SameResidencyAt(s, cfg, pid, ps.(memoryAccesses := ps.memoryAccesses + 1));
  }

  /** A hit only moves the row's `lastAccessedAt` up to the clock. */
  lemma HitPreservesInv(s: SimState, cfg: Config, pid: int, page: nat)
    requires Inv(s, cfg) && Holds(s, pid, page)
    ensures
      var ps := s.procs[pid];
      Inv(s.(procs := s.procs[pid := ps.(rows := ps.rows[page := ps.rows[page].(lastAccessedAt := s.time)])]), cfg)
  {
    var ps := s.procs[pid];
    var rows := ps.rows[page := ps.rows[page].(lastAccessedAt := s.time)];
    assert forall i :: 0 <= i < |rows| && rows[i].present ==> Holds(s, pid, i);
    SameResidencyAt(s, cfg, pid, ps.(rows := rows));
  }

  /** `t` is `s` with only process `pid` changed, and in it only rows `page` and `gone`: row
      `page` becomes resident in frame `f` at the current time, row `gone` (if it differs from
      `page`) stops being resident. */
  ghost predicate Reloads(s: SimState, t: SimState, pid: int, page: nat, gone: nat, f: nat)
  {
    && pid in s.procs && t.procs.Keys == s.procs.Keys && t.time == s.time
    && (forall q :: q in s.procs && q != pid ==> t.procs[q] == s.procs[q])
    && |t.procs[pid].rows| == |s.procs[pid].rows| && page < |s.procs[pid].rows|
    && gone < |s.procs[pid].rows|
    && !s.procs[pid].rows[page].present
    && t.procs[pid].rows[page] == Row(true, f, s.time, s.time)
    && (gone != page ==> !t.procs[pid].rows[gone].present)
    && (forall i :: 0 <= i < |s.procs[pid].rows| && i != page && i != gone ==>
          t.procs[pid].rows[i] == s.procs[pid].rows[i])
  }

  lemma ReloadHolders(s: SimState, t: SimState, pid: int, page: nat, gone: nat, f: nat)
    requires Reloads(s, t, pid, page, gone, f)
    ensures forall p, i :: Holds(t, p, i) ==>
      (p == pid && i == page) || (Holds(s, p, i) && !(p == pid && i == gone) && t.procs[p].rows[i] == s.procs[p].rows[i])
  {
  }

  lemma ReloadRowsOk(s: SimState, t: SimState, pid: int, page: nat, gone: nat, f: nat)
    requires Reloads(s, t, pid, page, gone, f) && ResidentRowsOk(s) && f < NUM_FRAMES
    ensures ResidentRowsOk(t)
  {
    ReloadHolders(s, t, pid, page, gone, f);
  }

  /** The frame loaded was free, or held only by the row given up. */
  lemma ReloadFrames(s: SimState, t: SimState, pid: int, page: nat, gone: nat, f: nat)
    requires Reloads(s, t, pid, page, gone, f) && FramesNotFree(s) && FramesExclusive(s)
    requires forall p, i :: Holds(s, p, i) && !(p == pid && i == gone) ==> s.procs[p].rows[i].frame != f
    requires forall x :: x in t.freeFrames ==> x in s.freeFrames && x != f
    ensures FramesNotFree(t) && FramesExclusive(t)
  {
    ReloadHolders(s, t, pid, page, gone, f);
  }

  /** Loading row `page` into the front free frame, as a state. */
  function FromPool(s: SimState, pid: int, page: nat): SimState
    requires pid in s.procs && page < |s.procs[pid].rows| && s.freeFrames != []
  {
    var ps := s.procs[pid];
    var rows := ps.rows[page := Row(true, s.freeFrames[0], s.time, s.time)];
    s.(pageFaults := s.pageFaults + 1, freeFrames := s.freeFrames[1..],
       procs := s.procs[pid := ProcState(rows, ps.memoryAccesses, ps.pageFaults + 1)])
  }

  lemma FromPoolRss(s: SimState, pid: int, page: nat)
    requires pid in s.procs && page < |s.procs[pid].rows| && s.freeFrames != []
    requires !s.procs[pid].rows[page].present
    ensures Rss(FromPool(s, pid, page).procs[pid]) == Rss(s.procs[pid]) + 1
    ensures TotalRss(FromPool(s, pid, page)) == TotalRss(s) + 1
  {
    var t := FromPool(s, pid, page);
    PresentCountUpdate(s.procs[pid].rows, page, Row(true, s.freeFrames[0], s.time, s.time));
    SumOverUpdate(s.procs, Rss, pid, t.procs[pid]);
  }

  lemma FromPoolInv(s: SimState, cfg: Config, pid: int, page: nat)
    requires Inv(s, cfg) && pid in s.procs
    requires page < |s.procs[pid].rows| && !s.procs[pid].rows[page].present
    requires Rss(s.procs[pid]) < cfg.maxFrames && s.freeFrames != []
    requires s.procs[pid].pageFaults < s.procs[pid].memoryAccesses
    ensures Inv(FromPool(s, pid, page), cfg)
  {
    var t := FromPool(s, pid, page);
    var f := s.freeFrames[0];
    assert Reloads(s, t, pid, page, page, f);
    assert f !in t.freeFrames;
    assert PoolOk(t);
    ReloadRowsOk(s, t, pid, page, page, f);
    ReloadFrames(s, t, pid, page, page, f);
    FromPoolRss(s, pid, page);
    assert QuotaAndCounters(t, cfg);
  }

  /** A miss under quota loads the page into the front free frame. */
  lemma FaultFromPoolPreservesInv(s: SimState, cfg: Config, pid: int, page: nat)
    requires Inv(s, cfg) && pid in s.procs
    requires page < |s.procs[pid].rows| && !s.procs[pid].rows[page].present
    requires Rss(s.procs[pid]) < cfg.maxFrames && s.freeFrames != []
    requires s.procs[pid].pageFaults < s.procs[pid].memoryAccesses
    ensures Inv(PageFault(s, cfg, pid, page), cfg)
  {
    RemoveFront(s.freeFrames);
    assert PageFault(s, cfg, pid, page) == FromPool(s, pid, page);
    FromPoolInv(s, cfg, pid, page);
  }

  /** Giving up row `v` and loading row `page` into its frame, as a state. */
  function Evicted(s: SimState, pid: int, page: nat, v: nat): SimState
    requires pid in s.procs && page < |s.procs[pid].rows| && v < |s.procs[pid].rows|
  {
    var ps := s.procs[pid];
    var rows := ps.rows[v := ps.rows[v].(present := false)][page := Row(true, ps.rows[v].frame, s.time, s.time)];
    s.(pageFaults := s.pageFaults + 1, procs := s.procs[pid := ProcState(rows, ps.memoryAccesses, ps.pageFaults + 1)])
  }

  lemma EvictedRss(s: SimState, pid: int, page: nat, v: nat)
    requires pid in s.procs && page < |s.procs[pid].rows| && v < |s.procs[pid].rows| && v != page
    requires s.procs[pid].rows[v].present && !s.procs[pid].rows[page].present
    ensures Rss(Evicted(s, pid, page, v).procs[pid]) == Rss(s.procs[pid])
    ensures TotalRss(Evicted(s, pid, page, v)) == TotalRss(s)
  {
    var ps := s.procs[pid];
    var evicted := ps.rows[v := ps.rows[v].(present := false)];
    var t := Evicted(s, pid, page, v);
    PresentCountUpdate(ps.rows, v, evicted[v]);
    PresentCountUpdate(evicted, page, Row(true, ps.rows[v].frame, s.time, s.time));
    SumOverUpdate(s.procs, Rss, pid, t.procs[pid]);
  }

  lemma EvictedInv(s: SimState, cfg: Config, pid: int, page: nat, v: nat)
    requires Inv(s, cfg) && pid in s.procs
    requires page < |s.procs[pid].rows| && v < |s.procs[pid].rows| && v != page
    requires s.procs[pid].rows[v].present && !s.procs[pid].rows[page].present
    requires s.procs[pid].pageFaults < s.procs[pid].memoryAccesses
    ensures Inv(Evicted(s, pid, page, v), cfg)
  {
    var t := Evicted(s, pid, page, v);
    var f := s.procs[pid].rows[v].frame;
    assert Reloads(s, t, pid, page, v, f);
    assert Holds(s, pid, v);
    ReloadRowsOk(s, t, pid, page, v, f);
    ReloadFrames(s, t, pid, page, v, f);
    EvictedRss(s, pid, page, v);
    assert QuotaAndCounters(t, cfg);
  }

  /** A miss at quota hands the victim's frame straight to the faulting page. */
  lemma FaultByEvictionPreservesInv(s: SimState, cfg: Config, pid: int, page: nat)
    requires Inv(s, cfg) && pid in s.procs && cfg.maxFrames >= 1 && s.time < INT_MAX
    requires page < |s.procs[pid].rows| && !s.procs[pid].rows[page].present
    requires Rss(s.procs[pid]) >= cfg.maxFrames
    requires s.procs[pid].pageFaults < s.procs[pid].memoryAccesses
    ensures Inv(PageFault(s, cfg, pid, page), cfg)
  {
    var v := VictimIsResident(s, cfg, pid);
    assert PageFault(s, cfg, pid, page) == Evicted(s, pid, page, v);
    EvictedInv(s, cfg, pid, page, v);
  }

  /** At quota, the policy's victim is a resident row of the faulting process. */
  lemma VictimIsResident(s: SimState, cfg: Config, pid: int) returns (v: nat)
    requires ResidentRowsOk(s) && pid in s.procs && cfg.maxFrames >= 1 && s.time < INT_MAX
    requires Rss(s.procs[pid]) >= cfg.maxFrames
    ensures v == Victim(s.procs[pid].rows, StampOf(cfg.strategy))
    ensures IsVictim(s.procs[pid].rows, StampOf(cfg.strategy), v)
    ensures v < |s.procs[pid].rows| && s.procs[pid].rows[v].present
  {
    var rows := s.procs[pid].rows;
    var stamp := StampOf(cfg.strategy);
    var w := PresentCountWitness(rows);
    assert Holds(s, pid, w);
    assert Key(rows[w], stamp) < INT_MAX;
    assert HasCandidate(rows, stamp);
    ScanIsVictim(rows, stamp);
    v := Victim(rows, stamp);
  }

  /** Every access that the source defines keeps the invariants. */
  lemma AccessPreservesInv(s: SimState, cfg: Config, va: VirtualAddress)
    requires Inv(s, cfg) && StepReady(s, cfg, va)
    ensures Inv(MemoryAccess(s, cfg, va).state, cfg)
  {
    var pid := va.processId;
    var ps := s.procs[pid].(memoryAccesses := s.procs[pid].memoryAccesses + 1);
    var s1 := s.(procs := s.procs[pid := ps]);
    var r := MemoryAccess(s, cfg, va).state;
    CountAccessPreservesInv(s, cfg, pid);
    assert Inv(s1, cfg);
    if va.page < |ps.rows| {
      assert s.procs[pid].pageFaults <= s.procs[pid].memoryAccesses;
      assert s1.procs[pid] == ps;
      if ps.rows[va.page].present {
        assert r == s1.(procs := s1.procs[pid := ps.(rows := ps.rows[va.page := ps.rows[va.page].(lastAccessedAt := s1.time)])]);
        assert Holds(s1, pid, va.page);
        HitPreservesInv(s1, cfg, pid, va.page);
      } else {
        assert r == PageFault(s1, cfg, pid, va.page);
        if Rss(ps) < cfg.maxFrames {
          FaultFromPoolPreservesInv(s1, cfg, pid, va.page);
        } else {
          FaultByEvictionPreservesInv(s1, cfg, pid, va.page);
        }
      }
    } else {
      assert r == s1;
    }
  }

  lemma TickPreservesInv(s: SimState, cfg: Config)
    requires Inv(s, cfg)
    ensures Inv(Tick(s), cfg)
  {
    SameResidencyInv(s, Tick(s), cfg);
  }

  lemma {:induction false} ReplayPreservesInv(s: SimState, cfg: Config, trace: seq<VirtualAddress>, from: nat)
    requires Inv(s, cfg) && Replayable(s, cfg, trace)
    ensures Inv(Replay(s, cfg, trace, from).state, cfg)
    decreases |trace|
  {
    if trace != [] {
      AccessPreservesInv(s, cfg, trace[0]);
      var r := MemoryAccess(s, cfg, trace[0]);
      if r.outcome.Translated? {
        TickPreservesInv(r.state, cfg);
        ReplayPreservesInv(Tick(r.state), cfg, trace[1..], from + 1);
      }
    }
  }

  /** From a freshly loaded state, every state a run ends in satisfies the invariants:
      resident-set sizes within quota, free frames plus resident pages equal to 512, no frame
      held twice or both held and free, faults never exceeding accesses. */
  lemma RunPreservesInv(s: SimState, cfg: Config, trace: seq<VirtualAddress>)
    requires Fresh(s) && Replayable(Seeded(s), cfg, trace)
    ensures Inv(Run(s, cfg, trace).state, cfg)
  {
    SeededInv(s, cfg);
    ReplayPreservesInv(Seeded(s), cfg, trace, 0);
  }

  // ---------------------------------------------------------------------------------------
  // When the free list cannot run dry

  /** Under the invariants, a process below quota that misses finds a free frame if the
      quotas fit in memory. */
  lemma ReadyWhenFramesSuffice(s: SimState, cfg: Config, va: VirtualAddress)
    requires Inv(s, cfg) && FramesSuffice(s, cfg)
    requires va.processId in s.procs && cfg.maxFrames >= 1 && s.time < INT_MAX
    ensures StepReady(s, cfg, va)
  {
    var pid := va.processId;
    var rows := s.procs[pid].rows;
    if va.page < |rows| && !rows[va.page].present && PresentCount(rows) < cfg.maxFrames {
      var d := Demand(cfg.maxFrames);
      PresentCountBelowLength(rows, va.page);
      assert Rss(s.procs[pid]) < d(s.procs[pid]);
      var rest := s.procs - {pid};
      forall k | k in rest
        ensures Rss(rest[k]) <= d(rest[k])
      {
        PresentCountIsSize(rest[k].rows);
      }
      SumOverRemove(s.procs, Rss, pid);
      SumOverRemove(s.procs, d, pid);
      SumOverMono(rest, Rss, d);
    }
  }

  lemma AccessKeepsDemand(s: SimState, cfg: Config, va: VirtualAddress)
    requires StepReady(s, cfg, va)
    ensures SumOver(Tick(MemoryAccess(s, cfg, va).state).procs, Demand(cfg.maxFrames))
         == SumOver(s.procs, Demand(cfg.maxFrames))
  {
    var t := Tick(MemoryAccess(s, cfg, va).state);
    SumOverSameKeys(t.procs, s.procs, Demand(cfg.maxFrames));
  }

  /** If the quotas fit in memory, the clock stays below the sentinel and every trace entry
      names a known process, then no access of the replay takes from an empty free list. */
  lemma {:induction false} ReplayableWhenFramesSuffice(s: SimState, cfg: Config, trace: seq<VirtualAddress>)
    requires Inv(s, cfg) && FramesSuffice(s, cfg) && cfg.maxFrames >= 1
    requires s.time + |trace| <= INT_MAX
    requires forall k :: 0 <= k < |trace| ==> trace[k].processId in s.procs
    ensures Replayable(s, cfg, trace)
    decreases |trace|
  {
    if trace != [] {
      ReadyWhenFramesSuffice(s, cfg, trace[0]);
      var r := MemoryAccess(s, cfg, trace[0]);
      if r.outcome.Translated? {
        var next := Tick(r.state);
        AccessPreservesInv(s, cfg, trace[0]);
        TickPreservesInv(r.state, cfg);
        AccessKeepsDemand(s, cfg, trace[0]);
        assert FramesSuffice(next, cfg);
        assert next.procs.Keys == s.procs.Keys && next.time == s.time + 1;
        assert forall k :: 0 <= k < |trace[1..]| ==> trace[1..][k].processId in next.procs by {
          forall k | 0 <= k < |trace[1..]|
            ensures trace[1..][k].processId in next.procs
          {
            assert trace[1..][k] == trace[k + 1];
          }
        }
        assert Inv(next, cfg);
        assert next.time + |trace[1..]| <= INT_MAX;
        ReplayableWhenFramesSuffice(next, cfg, trace[1..]);
      }
    }
  }

  lemma RunReplayable(s: SimState, cfg: Config, trace: seq<VirtualAddress>)
    requires Fresh(s) && FramesSuffice(s, cfg) && cfg.maxFrames >= 1
    requires s.time + |trace| <= INT_MAX
    requires forall k :: 0 <= k < |trace| ==> trace[k].processId in s.procs
    ensures Replayable(Seeded(s), cfg, trace)
  {
    SeededInv(s, cfg);
    ReplayableWhenFramesSuffice(Seeded(s), cfg, trace);
  }

  // ---------------------------------------------------------------------------------------
  // What one access does

  /** An out-of-range page is counted as an access and nothing else happens. */
  lemma InvalidPageOnlyCounts(s: SimState, cfg: Config, va: VirtualAddress)
    requires StepReady(s, cfg, va) && va.page >= |s.procs[va.processId].rows|
    ensures
      var r := MemoryAccess(s, cfg, va);
      var ps := s.procs[va.processId];
      && r.outcome == InvalidPage
      && r.state == s.(procs := s.procs[va.processId := ps.(memoryAccesses := ps.memoryAccesses + 1)])
  {
  }

  /** A hit refreshes only the row's `lastAccessedAt`, which moves forward to the clock. */
  lemma HitTouchesOnlyLastAccess(s: SimState, cfg: Config, va: VirtualAddress)
    requires ResidentRowsOk(s) && StepReady(s, cfg, va)
    requires va.page < |s.procs[va.processId].rows| && s.procs[va.processId].rows[va.page].present
    ensures
      var r := MemoryAccess(s, cfg, va);
      var ps := s.procs[va.processId];
      var row := ps.rows[va.page];
      && r.outcome == Translated(PhysicalAddress(row.frame, va.offset))
      && r.state.time == s.time && r.state.pageFaults == s.pageFaults && r.state.freeFrames == s.freeFrames
      && r.state.procs == s.procs[va.processId :=
           ProcState(ps.rows[va.page := row.(lastAccessedAt := s.time)], ps.memoryAccesses + 1, ps.pageFaults)]
      && row.loadedAt <= row.lastAccessedAt <= s.time
  {
    assert Holds(s, va.processId, va.page);
  }

  /** Every resident row was last touched before the current tick. */
  ghost predicate StampsBehind(s: SimState)
  {
    forall p, i :: Holds(s, p, i) ==> s.procs[p].rows[i].lastAccessedAt < s.time
  }

  /** The tick after every access puts all resident stamps behind the clock for the next one. */
  lemma StepLeavesStampsBehind(s: SimState, cfg: Config, va: VirtualAddress)
    requires Inv(s, cfg) && StepReady(s, cfg, va)
    ensures StampsBehind(Tick(MemoryAccess(s, cfg, va).state))
  {
    AccessPreservesInv(s, cfg, va);
  }

  /** A hit moves the row's last-access stamp strictly forward, past every other resident row
      of the process, so the row stops being the LRU victim while another row is resident. */
  lemma HitAdvancesStamp(s: SimState, cfg: Config, va: VirtualAddress)
    requires StampsBehind(s) && StepReady(s, cfg, va)
    requires va.page < |s.procs[va.processId].rows| && s.procs[va.processId].rows[va.page].present
    ensures
      var rows := MemoryAccess(s, cfg, va).state.procs[va.processId].rows;
      && |rows| == |s.procs[va.processId].rows|
      && rows[va.page].lastAccessedAt > s.procs[va.processId].rows[va.page].lastAccessedAt
      && (forall j :: 0 <= j < |rows| && j != va.page && rows[j].present ==>
            rows[j].lastAccessedAt < rows[va.page].lastAccessedAt)
      && ((exists j :: 0 <= j < |rows| && j != va.page && rows[j].present) ==>
            !IsVictim(rows, LastAccessedAt, va.page))
  {
    var pid := va.processId;
    var rows := MemoryAccess(s, cfg, va).state.procs[pid].rows;
    assert Holds(s, pid, va.page);
    assert rows == s.procs[pid].rows[va.page := rows[va.page]];
    forall j | 0 <= j < |rows| && j != va.page && rows[j].present
      ensures rows[j].lastAccessedAt < rows[va.page].lastAccessedAt
    {
      assert Holds(s, pid, j);
    }
    if j :| 0 <= j < |rows| && j != va.page && rows[j].present {
      assert Key(rows[j], LastAccessedAt) < INT_MAX;
      assert HasCandidate(rows, LastAccessedAt);
    }
  }

  /** A miss counts exactly one fault, globally and for the process, besides the access. */
  lemma MissCountsOneFault(s: SimState, cfg: Config, va: VirtualAddress)
    requires StepReady(s, cfg, va)
    requires va.page < |s.procs[va.processId].rows| && !s.procs[va.processId].rows[va.page].present
    ensures
      var r := MemoryAccess(s, cfg, va);
      var ps := s.procs[va.processId];
      && r.outcome.Translated?
      && r.state.pageFaults == s.pageFaults + 1
      && r.state.procs[va.processId].pageFaults == ps.pageFaults + 1
      && r.state.procs[va.processId].memoryAccesses == ps.memoryAccesses + 1
  {
  }

  /** A miss below quota takes the front free frame, which leaves the free list, and makes the
      page resident with both timestamps set to the clock. */
  lemma FaultTakesFrontFrame(s: SimState, cfg: Config, va: VirtualAddress)
    requires PoolOk(s) && StepReady(s, cfg, va)
    requires va.page < |s.procs[va.processId].rows| && !s.procs[va.processId].rows[va.page].present
    requires Rss(s.procs[va.processId]) < cfg.maxFrames
    ensures
      var r := MemoryAccess(s, cfg, va);
      var ps := s.procs[va.processId];
      && s.freeFrames != []
      && r.state.freeFrames == s.freeFrames[1..]
      && r.state.procs[va.processId].rows == ps.rows[va.page := Row(true, s.freeFrames[0], s.time, s.time)]
      && Rss(r.state.procs[va.processId]) == Rss(ps) + 1
      && (forall q :: q in s.procs && q != va.processId ==> r.state.procs[q] == s.procs[q])
      && r.outcome == Translated(PhysicalAddress(s.freeFrames[0], va.offset))
  {
    var ps := s.procs[va.processId];
    RemoveFront(s.freeFrames);
    PresentCountUpdate(ps.rows, va.page, Row(true, s.freeFrames[0], s.time, s.time));
  }

  /** A miss at quota evicts the policy's victim (a resident row with the least timestamp,
      lowest index first), keeps the victim's frame number in its row, and hands that frame
      to the faulting page; the free list, the resident-set size and the other processes are
      unchanged. */
  lemma FaultEvictsVictim(s: SimState, cfg: Config, va: VirtualAddress)
    requires ResidentRowsOk(s) && StepReady(s, cfg, va)
    requires va.page < |s.procs[va.processId].rows| && !s.procs[va.processId].rows[va.page].present
    requires Rss(s.procs[va.processId]) >= cfg.maxFrames
    ensures
      var r := MemoryAccess(s, cfg, va);
      var rows := s.procs[va.processId].rows;
      var v := Victim(rows, StampOf(cfg.strategy));
      && IsVictim(rows, StampOf(cfg.strategy), v)
      && v < |rows| && rows[v].present && v != va.page
      && r.state.procs[va.processId].rows ==
           rows[v := rows[v].(present := false)][va.page := Row(true, rows[v].frame, s.time, s.time)]
      && r.state.freeFrames == s.freeFrames
      && Rss(r.state.procs[va.processId]) == Rss(s.procs[va.processId])
      && (forall q :: q in s.procs && q != va.processId ==> r.state.procs[q] == s.procs[q])
      && r.outcome == Translated(PhysicalAddress(rows[v].frame, va.offset))
  {
    var rows := s.procs[va.processId].rows;
    var v := VictimIsResident(s, cfg, va.processId);
    var evicted := rows[v := rows[v].(present := false)];
    PresentCountUpdate(rows, v, evicted[v]);
    PresentCountUpdate(evicted, va.page, Row(true, rows[v].frame, s.time, s.time));
  }

  /** After a successful access the addressed page is resident, and the physical address is
      its frame with the unchanged offset. */
  lemma AccessTranslates(s: SimState, cfg: Config, va: VirtualAddress)
    requires StepReady(s, cfg, va)
    ensures
      var r := MemoryAccess(s, cfg, va);
      r.outcome.Translated? <==> va.page < |s.procs[va.processId].rows|
    ensures
      var r := MemoryAccess(s, cfg, va);
      r.outcome.Translated? ==>
        && Holds(r.state, va.processId, va.page)
        && r.outcome.address == PhysicalAddress(r.state.procs[va.processId].rows[va.page].frame, va.offset)
  {
  }

  /** A process whose pages all fit in its quota never evicts: each of its misses takes a
      frame from the free list. */
  lemma NoEvictionWithinQuota(s: SimState, cfg: Config, va: VirtualAddress)
    requires PoolOk(s) && StepReady(s, cfg, va)
    requires |s.procs[va.processId].rows| <= cfg.maxFrames
    requires va.page < |s.procs[va.processId].rows| && !s.procs[va.processId].rows[va.page].present
    ensures s.freeFrames != [] && MemoryAccess(s, cfg, va).state.freeFrames == s.freeFrames[1..]
  {
    PresentCountBelowLength(s.procs[va.processId].rows, va.page);
    FaultTakesFrontFrame(s, cfg, va);
  }

  // ---------------------------------------------------------------------------------------
  // What a run does

  /** The clock advances by exactly one per replayed entry; a run that stops at an invalid
      page stops at an entry of this trace and does not advance the clock for it. */
  lemma {:induction false} ReplayClock(s: SimState, cfg: Config, trace: seq<VirtualAddress>, from: nat)
    requires Replayable(s, cfg, trace)
    ensures
      var r := Replay(s, cfg, trace, from);
      match r.outcome
      case Completed => r.state.time == s.time + |trace|
      case SegfaultInvalidPage(e) => from <= e < from + |trace| && r.state.time == s.time + (e - from)
    decreases |trace|
  {
    if trace != [] {
      var r := MemoryAccess(s, cfg, trace[0]);
      if r.outcome.Translated? {
        ReplayClock(Tick(r.state), cfg, trace[1..], from + 1);
      }
    }
  }

  /** A trace whose every page is in range runs to completion. */
  lemma {:induction false} ReplayCompletesOnValidPages(s: SimState, cfg: Config, trace: seq<VirtualAddress>, from: nat)
    requires Replayable(s, cfg, trace)
    requires forall k :: 0 <= k < |trace| ==> trace[k].processId in s.procs
    requires forall k :: 0 <= k < |trace| ==> trace[k].page < |s.procs[trace[k].processId].rows|
    ensures Replay(s, cfg, trace, from).outcome == Completed
    decreases |trace|
  {
    if trace != [] {
      var r := MemoryAccess(s, cfg, trace[0]);
      assert r.outcome.Translated?;
      var next := Tick(r.state);
      forall k | 0 <= k < |trace[1..]|
        ensures trace[1..][k].processId in next.procs
        ensures trace[1..][k].page < |next.procs[trace[1..][k].processId].rows|
      {
        assert trace[1..][k] == trace[k + 1];
      }
      ReplayCompletesOnValidPages(next, cfg, trace[1..], from + 1);
    }
  }

  /** Replaying a prefix that starts with a successful access replays the rest of the
      prefix after one clock tick. */
  lemma ReplayPrefixCons(s: SimState, cfg: Config, trace: seq<VirtualAddress>, from: nat, k: nat)
    requires 0 < k < |trace| && StepReady(s, cfg, trace[0])
    requires MemoryAccess(s, cfg, trace[0]).outcome.Translated?
    requires Replayable(Tick(MemoryAccess(s, cfg, trace[0]).state), cfg, trace[1..][..k])
    ensures Replayable(s, cfg, trace[..k + 1])
    ensures Replay(s, cfg, trace[..k + 1], from) ==
            Replay(Tick(MemoryAccess(s, cfg, trace[0]).state), cfg, trace[1..][..k], from + 1)
  {
    assert trace[..k + 1][0] == trace[0];
    assert trace[..k + 1][1..] == trace[1..k + 1] == trace[1..][..k];
  }

  /** The conditions under which a replay reaches entry `k` and finds its page out of range. */
  predicate FirstInvalidAt(s: SimState, trace: seq<VirtualAddress>, k: nat)
  {
    && k < |trace|
    && (forall j :: 0 <= j <= k ==> trace[j].processId in s.procs)
    && (forall j :: 0 <= j < k ==> trace[j].page < |s.procs[trace[j].processId].rows|)
    && trace[k].page >= |s.procs[trace[k].processId].rows|
  }

  /** After a successful first access, the same entry is the first invalid one of the rest. */
  lemma FirstInvalidAtNext(s: SimState, cfg: Config, trace: seq<VirtualAddress>, k: nat)
    requires FirstInvalidAt(s, trace, k) && k > 0 && StepReady(s, cfg, trace[0])
    ensures MemoryAccess(s, cfg, trace[0]).outcome.Translated?
    ensures FirstInvalidAt(Tick(MemoryAccess(s, cfg, trace[0]).state), trace[1..], k - 1)
  {
    var next := Tick(MemoryAccess(s, cfg, trace[0]).state);
    forall j | 0 <= j <= k - 1
      ensures trace[1..][j].processId in next.procs
      ensures j < k - 1 ==> trace[1..][j].page < |next.procs[trace[1..][j].processId].rows|
      ensures j == k - 1 ==> trace[1..][j].page >= |next.procs[trace[1..][j].processId].rows|
    {
      assert trace[1..][j] == trace[j + 1];
    }
  }

  lemma {:induction false} ReplayStopOutcome(s: SimState, cfg: Config, trace: seq<VirtualAddress>, from: nat, k: nat)
    requires Replayable(s, cfg, trace) && FirstInvalidAt(s, trace, k)
    ensures Replay(s, cfg, trace, from).outcome == SegfaultInvalidPage(from + k)
    decreases k
  {
    if k > 0 {
      FirstInvalidAtNext(s, cfg, trace, k);
      var next := Tick(MemoryAccess(s, cfg, trace[0]).state);
      ReplayStopOutcome(next, cfg, trace[1..], from + 1, k - 1);
      assert Replay(s, cfg, trace, from) == Replay(next, cfg, trace[1..], from + 1);
    } else {
      assert MemoryAccess(s, cfg, trace[0]).outcome == InvalidPage;
    }
  }

  lemma {:induction false} ReplayStopPrefix(s: SimState, cfg: Config, trace: seq<VirtualAddress>, from: nat, k: nat)
    requires Replayable(s, cfg, trace) && FirstInvalidAt(s, trace, k)
    ensures Replayable(s, cfg, trace[..k + 1])
    ensures Replay(s, cfg, trace, from) == Replay(s, cfg, trace[..k + 1], from)
    decreases k
  {
    if k > 0 {
      FirstInvalidAtNext(s, cfg, trace, k);
      var next := Tick(MemoryAccess(s, cfg, trace[0]).state);
      ReplayStopPrefix(next, cfg, trace[1..], from + 1, k - 1);
      ReplayPrefixCons(s, cfg, trace, from, k);
    } else {
      assert trace[..1][0] == trace[0];
    }
  }

  /** The run stops at the first entry whose page is out of range, naming that entry, and
      the access it counted for it is the last state change: the result is that of the
      trace cut just after that entry. */
  lemma ReplayStopsAtFirstInvalidPage(s: SimState, cfg: Config, trace: seq<VirtualAddress>, from: nat, k: nat)
    requires Replayable(s, cfg, trace)
    requires k < |trace|
    requires forall j :: 0 <= j <= k ==> trace[j].processId in s.procs
    requires forall j :: 0 <= j < k ==> trace[j].page < |s.procs[trace[j].processId].rows|
    requires trace[k].page >= |s.procs[trace[k].processId].rows|
    ensures Replay(s, cfg, trace, from).outcome == SegfaultInvalidPage(from + k)
    ensures Replayable(s, cfg, trace[..k + 1])
    ensures Replay(s, cfg, trace, from) == Replay(s, cfg, trace[..k + 1], from)
  {
    ReplayStopOutcome(s, cfg, trace, from, k);
    ReplayStopPrefix(s, cfg, trace, from, k);
  }

  // ---------------------------------------------------------------------------------------
  // Small traces worked through

  /** A miss below quota, spelled out on the whole state. */
  lemma MissFromPoolStep(s: SimState, cfg: Config, va: VirtualAddress, frame: nat, rest: seq<nat>)
    requires StepReady(s, cfg, va)
    requires va.page < |s.procs[va.processId].rows| && !s.procs[va.processId].rows[va.page].present
    requires PresentCount(s.procs[va.processId].rows) < cfg.maxFrames
    requires s.freeFrames == [frame] + rest && frame !in rest
    ensures
      var ps := s.procs[va.processId];
      MemoryAccess(s, cfg, va) == AccessResult(
        s.(pageFaults := s.pageFaults + 1, freeFrames := rest,
           procs := s.procs[va.processId :=
             ProcState(ps.rows[va.page := Row(true, frame, s.time, s.time)], ps.memoryAccesses + 1, ps.pageFaults + 1)]),
        Translated(PhysicalAddress(frame, va.offset)))
  {
    assert s.freeFrames[1..] == rest;
    RemoveAllAbsent(rest, frame);
  }

  /** Replaying a successful first entry and then the rest. */
  lemma ReplayCons(s: SimState, cfg: Config, va: VirtualAddress, rest: seq<VirtualAddress>, from: nat, next: SimState)
    requires StepReady(s, cfg, va)
    requires MemoryAccess(s, cfg, va).outcome.Translated? && Tick(MemoryAccess(s, cfg, va).state) == next
    requires Replayable(next, cfg, rest)
    ensures Replayable(s, cfg, [va] + rest)
    ensures Replay(s, cfg, [va] + rest, from) == Replay(next, cfg, rest, from + 1)
  {
    assert ([va] + rest)[0] == va && ([va] + rest)[1..] == rest;
  }

  /** The first entry of the trace names an out-of-range page. */
  lemma ReplayStop(s: SimState, cfg: Config, va: VirtualAddress, rest: seq<VirtualAddress>, from: nat)
    requires StepReady(s, cfg, va) && MemoryAccess(s, cfg, va).outcome == InvalidPage
    ensures Replayable(s, cfg, [va] + rest)
    ensures Replay(s, cfg, [va] + rest, from) == RunResult(MemoryAccess(s, cfg, va).state, SegfaultInvalidPage(from))
  {
    assert ([va] + rest)[0] == va;
  }

  /** An out-of-range page stops the run at that entry: the access is counted, the clock is
      not advanced, and later entries are not replayed. */
  lemma InvalidPageStopsRun()
    ensures
      var s := SimState(0, 0, [5, 6], map[1 := ProcState(Blank(2), 0, 0)]);
      var cfg := Config(2, FIFO);
      var trace := [VirtualAddress(1, 0, 0), VirtualAddress(1, 2, 0), VirtualAddress(1, 1, 0)];
      && Replayable(s, cfg, trace)
      && Replay(s, cfg, trace, 0) == RunResult(
           SimState(1, 1, [6], map[1 := ProcState([Row(true, 5, 0, 0), Row(false, 0, 0, 0)], 2, 1)]),
           SegfaultInvalidPage(1))
  {
    var cfg := Config(2, FIFO);
    var va0, va1, va2 := VirtualAddress(1, 0, 0), VirtualAddress(1, 2, 0), VirtualAddress(1, 1, 0);
    var rows0 := [Row(false, 0, 0, 0), Row(false, 0, 0, 0)];
    var rows1 := rows0[0 := Row(true, 5, 0, 0)];
    assert Blank(2) == rows0;
    PresentCountIsSize(rows0);
    assert PresentIndices(rows0) == {};
    var s0 := SimState(0, 0, [5, 6], map[1 := ProcState(rows0, 0, 0)]);
    var s1 := SimState(1, 1, [6], map[1 := ProcState(rows1, 1, 1)]);
    MissFromPoolStep(s0, cfg, va0, 5, [6]);
    var stop := SimState(1, 1, [6], map[1 := ProcState(rows1, 2, 1)]);
    assert MemoryAccess(s1, cfg, va1) == AccessResult(stop, InvalidPage);
    ReplayStop(s1, cfg, va1, [va2], 1);
    ReplayCons(s0, cfg, va0, [va1, va2], 0, s1);
    assert [va0, va1, va2] == [va0] + [va1, va2] && [va1, va2] == [va1] + [va2];
    assert rows1 == [Row(true, 5, 0, 0), Row(false, 0, 0, 0)];
  }
}

=== FILE: process.dfy ===
/** A simulated process: its pages (by size), its page table, and its access counters. */
module Proc {
  import opened PageTable

  /** What the simulator reads and writes of one process: its page-table rows and counters. */
  datatype ProcState = ProcState(rows: seq<Row>, memoryAccesses: nat, pageFaults: nat)

  /** Resident set size: the number of present rows. */
  function Rss(ps: ProcState): nat
  {
    PresentCount(ps.rows)
  }

  /** Total size of a sequence of pages, added up in the order they were read. */
  function SumSizes(sizes: seq<nat>): nat
  {
    if sizes == [] then 0 else SumSizes(sizes[..|sizes| - 1]) + sizes[|sizes| - 1]
  }

  /** Reading more pages adds their sizes to the total. */
  lemma {:induction false} SumSizesAppend(a: seq<nat>, b: seq<nat>)
    ensures SumSizes(a + b) == SumSizes(a) + SumSizes(b)
    decreases |b|
  {
    if b == [] {
      assert a + b == a;
    } else {
      var n := |b| - 1;
      assert (a + b)[..|a + b| - 1] == a + b[..n];
      SumSizesAppend(a, b[..n]);
    }
  }

  /** No page is larger than the process. */
  lemma {:induction false} SumSizesBound(sizes: seq<nat>, i: nat)
    requires i < |sizes|
    ensures sizes[i] <= SumSizes(sizes)
  {
    var n := |sizes| - 1;
    if i < n {
      SumSizesBound(sizes[..n], i);
    }
  }

  /** The loop of `read_from_input`: keep every page in read order and add its size to the
      byte count. */
  method AccumulatePages(sizes: seq<nat>) returns (pages: seq<nat>, numBytes: nat)
    ensures pages == sizes
    ensures numBytes == SumSizes(sizes)
  {
    pages := [];
    numBytes := 0;
    var i := 0;
    while i < |sizes|
      invariant 0 <= i <= |sizes|
      invariant pages == sizes[..i]
      invariant numBytes == SumSizes(pages)
    {
      pages := pages + [sizes[i]];
      numBytes := numBytes + sizes[i];
      assert pages[..|pages| - 1] == sizes[..i];
      i := i + 1;
    }
  }

  class Process {
    /** The size of each page, in the order the pages were read. */
    const pages: seq<nat>
    /** Total size of the process in bytes. */
    const numBytes: nat
    /** The page table: one row per page. */
    var rows: seq<Row>
    var memoryAccesses: nat
    var pageFaults: nat

    /** The page table has a row for every page. */
    ghost predicate Valid()
      reads this
    {
      |rows| == |pages|
    }

    /** This process as the simulator's state machine sees it. */
    ghost function View(): ProcState
      reads this
    {
      ProcState(rows, memoryAccesses, pageFaults)
    }

    /** A process with all pages absent and both counters at zero. */
    constructor (numBytes: nat, pages: seq<nat>)
      ensures this.numBytes == numBytes && this.pages == pages
      ensures rows == Blank(|pages|)
      ensures memoryAccesses == 0 && pageFaults == 0
      ensures Valid()
    {
      this.numBytes := numBytes;
      this.pages := pages;
      rows := Blank(|pages|);
      memoryAccesses := 0;
      pageFaults := 0;
    }

    /** `read_from_input`: the pages as read, and the sum of their sizes as the process size. */
    static method ReadFromInput(sizes: seq<nat>) returns (p: Process)
      ensures fresh(p) && p.Valid() && p.Sized()
      ensures p.pages == sizes && p.Size() == SumSizes(sizes)
      ensures p.View() == ProcState(Blank(|sizes|), 0, 0)
    {
      var pages, numBytes := AccumulatePages(sizes);
      p := new Process(numBytes, pages);
    }

    /** The byte count is the total size of the pages, as `read_from_input` builds it. */
    ghost predicate Sized()
    {
      numBytes == SumSizes(pages)
    }

    /** `size`: the byte count fixed when the process was read. */
    function Size(): (n: nat)
      requires Sized()
      ensures n == SumSizes(pages)
    {
      numBytes
    }

    /** `is_valid_page`: an index names a page exactly when it is below the number of pages. */
    function IsValidPage(index: nat): (b: bool)
      reads this
      requires Valid()
      ensures b <==> index < |pages|
    {
      index >= 0 && index < |rows|
    }

    /** `get_rss`: the resident-set size is the number of present rows. */
    method GetRss() returns (rss: nat)
      ensures rss == Rss(View())
      ensures rss == |PresentIndices(rows)| && rss <= |rows|
      ensures Valid() ==> rss <= |pages|
    {
      rss := GetPresentPageCount(rows);
    }

    /** `get_fault_percent`, over the reals: faults per access as a percentage, and 0 before
        the first access. */
    function FaultPercent(): (r: real)
      reads this
      ensures memoryAccesses == 0 ==> r == 0.0
      ensures memoryAccesses != 0 ==> r * memoryAccesses as real == 100.0 * pageFaults as real
      ensures 0.0 <= r
      ensures pageFaults <= memoryAccesses ==> r <= 100.0
    {
      if memoryAccesses != 0 then (pageFaults as real / memoryAccesses as real) * 100.0 else 0.0
    }
  }
}

=== FILE: simulation.dfy ===
/** The simulator object: the free-frame list, the clock, the global fault counter and the
    processes it drives through a trace of virtual addresses. */
module Sim {
  import opened PageTable
  import opened Paging
  import opened Proc

  class Simulation {
    const maxFrames: nat
    const strategy: Strategy
    /** Process objects by process id. */
    const processes: map<int, Process>
    /** The trace, in file order. */
    const virtualAddresses: seq<VirtualAddress>
    var time: nat
    var pageFaults: nat
    /** The free frames, front first. */
    var freeFrames: seq<nat>

    /** Each process id names its own process object. */
    ghost predicate ProcessesDistinct()
    {
      forall p, q :: p in processes && q in processes && p != q ==> processes[p] != processes[q]
    }

    /** Every page table has a row per page. */
    ghost predicate Valid()
      reads processes.Values
    {
      forall p :: p in processes ==> processes[p].Valid()
    }

    function Cfg(): Config
    {
      Config(maxFrames, strategy)
    }

    /** The processes as values, by process id. */
    ghost function Procs(): map<int, ProcState>
      reads processes.Values
    {
      map p | p in processes :: processes[p].View()
    }

    /** The whole simulator as a value of the state machine. */
    ghost function State(): SimState
      reads this, processes.Values
    {
      SimState(time, pageFaults, freeFrames, Procs())
    }

    constructor (maxFrames: nat, strategy: Strategy, processes: map<int, Process>, virtualAddresses: seq<VirtualAddress>)
      ensures this.maxFrames == maxFrames && this.strategy == strategy
      ensures this.processes == processes && this.virtualAddresses == virtualAddresses
      ensures time == 0 && pageFaults == 0 && freeFrames == []
    {
      this.maxFrames := maxFrames;
      this.strategy := strategy;
      this.processes := processes;
      this.virtualAddresses := virtualAddresses;
      time := 0;
      pageFaults := 0;
      freeFrames := [];
    }

    /** `handle_page_fault`: count the fault, then load the page into the front free frame
        while the process is under quota, or else evict the policy's victim and reuse its
        frame. Only the global fault counter, the free list and the faulting process change. */
    method HandlePageFault(process: Process, page: nat)
      requires page < |process.rows|
      requires PresentCount(process.rows) < maxFrames ==> freeFrames != []
      modifies this, process
      ensures pageFaults == old(pageFaults) + 1 && time == old(time)
      ensures Loaded(process.View(), freeFrames) == FaultIn(old(process.View()), old(freeFrames), time, Cfg(), page)
    {
      ghost var ps := process.View();
      pageFaults := pageFaults + 1;
      process.pageFaults := process.pageFaults + 1;
      var rss := process.GetRss();
      var rows := process.rows;
      if rss < maxFrames {
        var frameIndex := freeFrames[0];
        freeFrames := RemoveAll(freeFrames, frameIndex);
        rows := rows[page := Row(true, frameIndex, time, time)];
      } else {
        var pageIndex;
        if strategy == FIFO {
          pageIndex := GetOldestPage(rows);
        } else {
          pageIndex := GetLeastRecentlyUsedPage(rows);
        }
        rows := rows[pageIndex := rows[pageIndex].(present := false)];
        var frameIndex := rows[pageIndex].frame;
        rows := rows[page := Row(true, frameIndex, time, time)];
      }
      process.rows := rows;
    }

    /** `perform_memory_access`: count the access, stop on an invalid page, refresh a resident
        page or fault it in, and translate the address. */
    method PerformMemoryAccess(va: VirtualAddress) returns (outcome: AccessOutcome)
      requires ProcessesDistinct() && Valid() && StepReady(State(), Cfg(), va)
      modifies this, processes[va.processId]
      ensures Valid()
      ensures AccessResult(State(), outcome) == MemoryAccess(old(State()), Cfg(), va)
    {
      ghost var s := State();
      ghost var r := MemoryAccess(s, Cfg(), va);
      var proc := processes[va.processId];
      proc.memoryAccesses := proc.memoryAccesses + 1;
      ghost var counted := s.(procs := s.procs[va.processId := proc.View()]);
      var valid := proc.IsValidPage(va.page);
      if !valid {
        outcome := InvalidPage;
        assert r == AccessResult(counted, outcome);
      } else if proc.rows[va.page].present {
        proc.rows := proc.rows[va.page := proc.rows[va.page].(lastAccessedAt := time)];
        outcome := Translated(PhysicalAddress(proc.rows[va.page].frame, va.offset));
        assert r == AccessResult(counted.(procs := s.procs[va.processId := proc.View()]), outcome);
      } else {
        HandlePageFault(proc, va.page);
        outcome := Translated(PhysicalAddress(proc.rows[va.page].frame, va.offset));
        assert r.state == PageFault(counted, Cfg(), va.processId, va.page);
        assert r == AccessResult(SimState(time, pageFaults, freeFrames, s.procs[va.processId := proc.View()]), outcome);
      }
      ghost var procs := s.procs[va.processId := proc.View()];
      forall q | q in processes
        ensures Procs()[q] == procs[q]
      {
        if q != va.processId {
          assert processes[q] != proc;
        }
      }
      assert Procs().Keys == procs.Keys;
      assert Procs() == procs;
    }

    /** The first loop of `run`: frames 0..511, in order, go to the back of the free list. */
    method SeedFreeFrames()
      requires Valid()
      modifies this
      ensures Valid()
      ensures State() == Seeded(old(State()))
    {
      for i := 0 to NUM_FRAMES
        invariant freeFrames == old(freeFrames) + Iota(i)
        invariant time == old(time) && pageFaults == old(pageFaults)
      {
        freeFrames := freeFrames + [i];
      }
    }

    /** The clock step of `run`'s second loop. */
    method AdvanceClock()
      requires Valid()
      modifies this
      ensures Valid()
      ensures State() == Tick(old(State()))
    {
      time := time + 1;
    }

    /** `run`: append frames 0..511 to the free list, then perform every access in trace
        order, advancing the clock after each; an invalid page ends the run at that entry. */
    method Run() returns (outcome: RunOutcome)
      requires ProcessesDistinct() && Valid() && Replayable(Seeded(State()), Cfg(), virtualAddresses)
      modifies this, processes.Values
      ensures Valid()
      ensures RunResult(State(), outcome) == Paging.Run(old(State()), Cfg(), virtualAddresses)
    {
      SeedFreeFrames();
      for i := 0 to |virtualAddresses|
        invariant Valid()
        invariant Replayable(State(), Cfg(), virtualAddresses[i..])
        invariant Replay(State(), Cfg(), virtualAddresses[i..], i) == Paging.Run(old(State()), Cfg(), virtualAddresses)
      {
        var va := virtualAddresses[i];
        assert virtualAddresses[i..][0] == va && virtualAddresses[i..][1..] == virtualAddresses[i + 1..];
        ghost var step := MemoryAccess(State(), Cfg(), va);
        ghost var rest := Replay(State(), Cfg(), virtualAddresses[i..], i);
        var o := PerformMemoryAccess(va);
        assert State() == step.state && o == step.outcome;
        if o == InvalidPage {
          assert rest == RunResult(step.state, SegfaultInvalidPage(i));
          return SegfaultInvalidPage(i);
        }
        AdvanceClock();
      }
      outcome := Completed;
    }
  }
}
